=== FILE: README.md ===
# SellerBot core in Dafny

SellerBot is a chat bot. It routes recognized intents to three small waterfall dialogs and calls a remote parts-catalog service for the user. This project models its core. That core is made of three parts:

- the bot's turn (`EmptyBotBot.OnTurnAsync`) and its three dialogs;
- the catalog client's cart flag (`PartsTechAPI._cartExists` with add, delete and list);
- the client's token state (login and the refresh guard).

Every remote call is an abstract answer passed in. `Remote<T>` has three cases: a parsed 200 (`Ok`), another status (`NonOk`), or an unparsable body (`ParseFail`). The clock is an integer number of seconds passed in. The model is functional: immutable records for the session, tokens and cart flag, and pure transition functions.

Modules:

- `Outcomes` (outcomes.dfy): `Option`, `Remote` and `Fault`. `Fault` lists the exceptions that can abort a turn.
- `Tokens` (tokens.dfy): the token fields, login (`AutorizeLogin`, and `LogPartner` with fixed credentials), and the refresh (`refreshAcces`).
- `Cart` (cart.dfy): the cart flag. It has the self-recursive add as written (bounded by fuel) and a corrected add, plus delete and list.
- `PartsTech` (parts_tech.dfy): the client as a whole, and its constructor.
- `Responses` (responses.dfy): the fields the bot reads from catalog, quote and shop answers. It also holds `Env`, the remote answers and clock reading for one turn.
- `Dialogs` (dialogs.dfy): the session record and the three dialogs: `searchDialog`, `loginDialog` and `choiceDialog`. `Continue` runs one dialog step.
- `Dispatcher` (dispatcher.dfy): the intent enumeration and its parsing, part-id upper-casing, the image index, and `Turn`.
- `Conversations` (conversations.dfy): turns folded over a conversation, and complete dialogs end to end.

How a turn ends:

- An activity that is not a message (a conversation update, for example) is ignored: no recognizer call, no reply, no save (`Ignored`).
- A turn that finishes saves the session once (`saves` counts the saves).
- A turn that raises returns `Threw(fault)` and does not save. So the dialog frame and collected values go back to their state before the turn. Its replies are those sent before the exception. The adapter's error handler then sends "Sorry, it looks like something went wrong." (Startup.cs:92-95). That message is not part of the model's replies.
- The `parameters` map and the token state live in long-lived objects. They keep what the turn wrote before the exception.

A frame `Frame(d, k)` means dialog `d` ran step `k`, which prompted the user, and is waiting for the reply. The reply runs step `k + 1`. The values a dialog collects belong to its instance: when the dialog ends they are discarded with it (`EndDialog`).

Behaviour of the code that the model keeps as it is:

- An intent label outside the enumeration makes `Enum.Parse` raise (EmptyBotBot.cs:240). There is no fallback to "None".
- Login returns null on failure (PartsTechAPI.cs:135-142), and the cart operations raise or return null (PartsTechAPI.cs:191-223). No operation returns a typed error.
- Catalog calls send whatever tokens the client holds. Nothing checks the token's age before a call.
- Nothing serializes refreshes: each call of `refreshAcces` runs its own guard and request.

## Model

| member | source | states |
|---|---|---|
| Tokens.Authorize | SellerBot/EmptyBot/Services/PartsTechAPI.cs:117-143 | The login time is set to `now` on every outcome. A parsed 200 returns the body and overwrites both tokens with its fields. A non-OK status or an unparsable body returns null and keeps both tokens. The lifetime is never changed. |
| Tokens.LaterLoginSupersedes | SellerBot/EmptyBot/Services/PartsTechAPI.cs:123-140 | After a successful login, the state is the same whatever login attempts came before it. |
| Tokens.FailedLoginOnlyStamps | SellerBot/EmptyBot/Services/PartsTechAPI.cs:123-142 | A failed login differs from no login only in the recorded login time. |
| Tokens.AsWrittenGuardFiresOnFreshToken | SellerBot/EmptyBot/Services/PartsTechAPI.cs:78 | The written guard `logTime - now <= expiresIn` holds for every token obtained in the past with a non-negative lifetime. |
| Tokens.AsWrittenGuardCounterexample | SellerBot/EmptyBot/Services/PartsTechAPI.cs:78 | A one-hour token obtained ten seconds ago is fresh, yet the written guard asks for a refresh. |
| Tokens.CorrectedGuardSparesFreshToken | SellerBot/EmptyBot/Services/PartsTechAPI.cs:78 | The intended guard fires exactly when the token is not fresh. |
| Tokens.GuardsAgreeWhileLifetimeUnset | SellerBot/EmptyBot/Services/PartsTechAPI.cs:78 | With lifetime zero and `logTime <= now`, both guards ask for a refresh, so a refresh is always attempted. |
| Tokens.RefreshAsWritten | SellerBot/EmptyBot/Services/PartsTechAPI.cs:76-98 | It returns "juanga" exactly when the written guard does not fire. When the guard fires, it returns null on a null response (and returns only then), and raises on any body. The token state never changes. |
| Tokens.Refresh | SellerBot/EmptyBot/Services/PartsTechAPI.cs:76-98 | It returns "juanga" exactly when the intended guard does not fire, and then changes nothing. When the guard fires, a null response returns null. It returns "ok" exactly when the intended guard fires and the body parses; then both tokens come from the body. Otherwise the state is unchanged. The login time and lifetime are never touched. |
| Tokens.AsWrittenRefreshNeverUpdates | SellerBot/EmptyBot/Services/PartsTechAPI.cs:85-90 | With the lifetime unset, a parsed refresh answer makes the written refresh raise with the tokens unchanged. The corrected refresh installs the answer. |
| Cart.AddAsWritten | SellerBot/EmptyBot/Services/PartsTechAPI.cs:191-204 | The add never changes the flag. It returns normally exactly when a cart exists and the payload is non-null, and then it posts exactly that payload once. A null payload raises with no request. |
| Cart.AddAsWrittenNeverReturns | SellerBot/EmptyBot/Services/PartsTechAPI.cs:197-201 | With no cart and a non-null payload, every fuel bound is exhausted. Before that, the creation stub runs once per level, nothing is posted and the flag stays false. |
| Cart.EnsureCart | SellerBot/EmptyBot/Services/PartsTechAPI.cs:197-201 | Afterwards the flag is set. Its only action is the creation stub, which runs exactly when no cart existed. Nothing is posted. |
| Cart.EnsureCartIdempotent | SellerBot/EmptyBot/Services/PartsTechAPI.cs:197-201 | Any positive number of EnsureCart calls leaves the flag set and creates the cart at most once: once if there was none, never if there was one. |
| Cart.AddPart | SellerBot/EmptyBot/Services/PartsTechAPI.cs:191-204 | Corrected add. A null payload raises and changes nothing. Otherwise the flag ends true and the payload is posted exactly once, as the last request. The cart is created exactly when none existed. Nothing else is sent: no remove or info request. |
| Cart.AddPartAgreesWithCart | SellerBot/EmptyBot/Services/PartsTechAPI.cs:195-196 | With a cart present, the corrected add equals the written add for any fuel. |
| Cart.ToggleIsSetInCreateBranch | SellerBot/EmptyBot/Services/PartsTechAPI.cs:195-201 | With a non-null payload, the written add takes its create branch, running the creation stub first, exactly when no cart exists. On that branch the toggle `!_cartExists` gives the flag the corrected add leaves: true. |
| Cart.DeleteParts | SellerBot/EmptyBot/Services/PartsTechAPI.cs:206-212 | It sends the remove request exactly when a cart exists, and raises otherwise. The flag never changes. |
| Cart.GetCartItems | SellerBot/EmptyBot/Services/PartsTechAPI.cs:214-223 | With a cart, it requests the contents and returns the response. Without one, it returns null and sends nothing. The flag never changes. |
| PartsTech.Construct | SellerBot/EmptyBot/Services/PartsTechAPI.cs:24-28 | A new client has the cart flag false and lifetime zero. Its login time is the construction time. Its tokens are those of the partner login when that succeeded, and null otherwise. |
| PartsTech.LifetimeStaysZero | SellerBot/EmptyBot/Services/PartsTechAPI.cs:22 | The lifetime is still zero after construction, a login and a refresh. |
| Dialogs.Begin | SellerBot/EmptyBot/EmptyBotBot.cs:183-202 | Starting a dialog makes it active at its first step with no collected values. Parameters and saves are untouched. |
| Dialogs.Continue | SellerBot/EmptyBot/EmptyBotBot.cs:41-169 | A dialog step never touches the parameters or saves. It makes at most one remote call, and the search dialog makes none. It never switches to another dialog. It changes the tokens only with a login call. A step that ends the dialog discards the values it collected. |
| Dialogs.ConfirmYes | SellerBot/EmptyBot/EmptyBotBot.cs:80-103 | With a stored part number, it makes exactly one quote call with that number. It completes exactly when the quote has a line, and then it sends that line's store and price and ends the dialog, discarding its values. A missing part number raises before any call. A step that raises sends no message. |
| Dialogs.BeginWf | SellerBot/EmptyBot/EmptyBotBot.cs:183-202 | A newly started dialog leaves the session well formed. |
| Dialogs.ContinueWf | SellerBot/EmptyBot/EmptyBotBot.cs:41-169 | Dialog steps keep sessions well formed: no values are left once no dialog is active, and a waiting step has what the next step reads. On a well-formed session, only the "Yes" quote branch can raise. |
| Dialogs.SearchDialogSteps | SellerBot/EmptyBot/EmptyBotBot.cs:53-132 | The piece reply is stored under "piece", then the keyword prompt is sent. After the keyword reply, the only message is "Piece info:". No call is made, and the dialog ends and discards its values. |
| Dialogs.LoginDialogSteps | SellerBot/EmptyBot/EmptyBotBot.cs:134-169 | The user reply is stored under "user", then the password prompt is sent. The password is stored under "password", and one login call carries both. The reply is "Could not login" exactly when the login returned null, and "Login succesful" otherwise. Then the dialog ends and discards both values. |
| Dialogs.ChoiceDialogSteps | SellerBot/EmptyBot/EmptyBotBot.cs:67-103 | "No" ends the dialog with no call and no message. Any reply other than the two offered choices re-sends the prompt and changes nothing. "Yes" makes exactly one quote call, with the stored part number. |
| Dispatcher.ParseIntent | SellerBot/EmptyBot/EmptyBotBot.cs:240 | A parsed label is exactly the name of the member returned. An unparsed label names no member. |
| Dispatcher.ParseIntentRoundTrip | SellerBot/EmptyBot/EmptyBotBot.cs:240-331 | Every member's name parses back to that member. |
| Dispatcher.Upper | SellerBot/EmptyBot/EmptyBotBot.cs:244 | The length is kept. Each character is upper-cased in place, and no lower-case ASCII letter remains. |
| Dispatcher.UpperIdempotent | SellerBot/EmptyBot/EmptyBotBot.cs:244 | Upper-casing twice equals upper-casing once. Characters that are not lower-case letters are unchanged. |
| Dispatcher.ImageIndex | SellerBot/EmptyBot/EmptyBotBot.cs:249 | The index is in bounds exactly when there is at least one image. It is -1 for none, 0 for one image, and 1 (the second image) for two or more. |
| Dispatcher.SearchBranch | SellerBot/EmptyBot/EmptyBotBot.cs:242-265 | A missing part id raises with no call. Otherwise exactly one lookup runs, with the id upper-cased. Only the part number can be written to the parameters. A raising branch has sent only "Searching...". A completed one sends, in order: "Searching...", the name message, the card with the image chosen by the image index, and the quote prompt. It also starts the quote dialog. |
| Dispatcher.ShopBranch | SellerBot/EmptyBot/EmptyBotBot.cs:282-305 | It makes one shop call. It completes exactly when the profile parsed and has an address, and then it sends "Sure!", the phone and cellphone line, and the address line, in that order. Otherwise it raises with no message. |
| Dispatcher.Dispatch | SellerBot/EmptyBot/EmptyBotBot.cs:240-331 | AddCart, RemoveCart, GetQuote and RequestQuote do nothing. Greetings, Help and None send exactly their canned message. Shop makes the shop call. StartSearch and Login start their dialog. Only Search writes parameters. Only Search, StartSearch and Login change the active dialog. At most one call is made and the tokens are untouched. |
| Dispatcher.Commit | SellerBot/EmptyBot/EmptyBotBot.cs:332-333 | A completed turn saves once and keeps its dialog progress. A turn that raised does not save and keeps the earlier frame and values, but keeps the parameters it wrote. |
| Dispatcher.Turn | SellerBot/EmptyBot/EmptyBotBot.cs:218-335 | A non-message activity is ignored exactly: no reply, no call, no change, no save. The save count grows by one exactly when the turn completes. At most one remote call is made. Tokens change only with a login call. A raised turn keeps the earlier dialog progress. An unknown label with no active dialog raises with no effect at all. Only "partNumber" can change among the parameters. |
| Dispatcher.ActiveTurnIgnoresIntent | SellerBot/EmptyBot/EmptyBotBot.cs:228-237 | With a dialog active, the turn does not depend on the intent label or entities. |
| Dispatcher.ActiveTurnContinues | SellerBot/EmptyBot/EmptyBotBot.cs:231-237 | With a dialog active, a message turn whose dialog step does not raise is that step followed by exactly one save. |
| Dispatcher.InertIntentOnlySaves | SellerBot/EmptyBot/EmptyBotBot.cs:280-333 | AddCart, RemoveCart, GetQuote and RequestQuote send nothing, call nothing and start nothing. The only effect is one save. |
| Dispatcher.KnownIntentRunsOneBranch | SellerBot/EmptyBot/EmptyBotBot.cs:240-333 | A known label runs exactly its own branch. The turn saves exactly when that branch completes. |
| Dispatcher.SearchTurn | SellerBot/EmptyBot/EmptyBotBot.cs:242-265 | The lookup uses the upper-cased id, and the part number is stored even if the turn then raises. With no images the turn raises at the image index. Otherwise the card shows the chosen image, the quote prompt comes last, and the quote dialog is active. |
| Dispatcher.TurnWf | SellerBot/EmptyBot/EmptyBotBot.cs:218-335 | Every turn keeps the session well formed. |
| Conversations.RunSavesOncePerCompletedTurn | SellerBot/EmptyBot/EmptyBotBot.cs:218-335 | Over any conversation, the save count grows by exactly the number of turns that completed. |
| Conversations.RunPreservesWf | SellerBot/EmptyBot/EmptyBotBot.cs:183-202 | Over any conversation, sessions stay well formed. |
| Conversations.NewConversation | SellerBot/EmptyBot/EmptyBotBot.cs:218-335 | A conversation started from the empty record stays well formed, and its save count equals the number of completed turns. |
| Conversations.LifetimeNeverAssigned | SellerBot/EmptyBot/Services/PartsTechAPI.cs:22 | Over any conversation, the token lifetime keeps the value it had at the start. So a client constructed with lifetime zero keeps it at zero for its whole life. |
| Conversations.TokensChangeOnlyByLogin | SellerBot/EmptyBot/EmptyBotBot.cs:146-169 | Over any conversation, the tokens change only if some turn made a login call. |
| Conversations.LoginConversation | SellerBot/EmptyBot/EmptyBotBot.cs:106-169 | Login, user, password gives two prompts, then one login call with the two replies. The reply is "Could not login" exactly when the answer was not a parsed 200. The user name is held while the password prompt waits. At the end no dialog is active, no value is left, and there were three saves. |
| Conversations.SearchDialogConversation | SellerBot/EmptyBot/EmptyBotBot.cs:41-132 | StartSearch, piece, keyword gives the two prompts and then "Piece info:". No call is made. The piece id is held while the keyword prompt waits, and nothing collected is left once the dialog ends. |
| Conversations.SearchThenQuote | SellerBot/EmptyBot/EmptyBotBot.cs:80-265 | After a successful Search, "Yes" quotes the part number the search stored. "No" makes no call and ends. Any other reply re-asks and stays. |

## Left out

- HTTP, JSON and transport failures. Every remote exchange is an abstract answer. An exception from `PostAsync`/`GetAsync` is not modelled. `GetQuote`'s two requests (suppliers, then quote) are one call. `ReadJSON` and `GetVehicleByID` are not used by the core.
- Bot Framework internals: the dialog stack, prompt dialogs, attachments and channel delivery. A frame records the waiting step. `ChoicePrompt` accepts exactly "Yes" or "No"; its fuzzy, case-insensitive and ordinal matching is not modelled.
- Dispatcher.ParseIntent: exact member names only. `Enum.Parse` also accepts surrounding whitespace and numeric strings. A numeric string outside the enumeration would match no case and only save.
- Dispatcher.Upper: folds only ASCII `a`–`z`. `ToUpper` is culture-sensitive and also folds other letters.
- Dispatcher.ShopBranch: the address arrives already formatted. The `string.Format` over the dynamic address fields is not modelled, only its null case.
- Dispatcher.SearchBranch: the part's name, number and image URLs are plain strings. Null fields inside a parsed 200 are not modelled. Any non-200 or unparsable lookup raises.
- Cart.AddAsWritten: assumes `content.ToList()` binds for every non-null payload. The dynamic binder does not see LINQ's extension `ToList`, so it finds no instance `ToList` on most runtime types and would raise there instead of recursing. It also assumes that `PostAsync(uriAddPart, content)` (PartsTechAPI.cs:196) binds, which needs an `HttpContent` payload; any other payload raises a binder exception and nothing is posted.
- Session.parameters: the model gives each conversation its own parameters map. In the program `Accesor.Parameters` is one dictionary for the whole process: `SearchAccesors` is registered as a singleton (Startup.cs:68-73) and the field is SearchPiece.cs:27. So `Dialogs.ConfirmYes` and `Conversations.SearchThenQuote` hold only while no other conversation runs a Search between the two turns. Another user's Search changes the part number this user's "Yes" quotes.
- `GetShop` and `GetQuote` do not check the HTTP status. The model treats `NonOk` as a raise in the Shop branch and the quote step, which assumes an error body without the fields the bot reads.
- A quote line whose `price` is null would raise at EmptyBotBot.cs:89, because in `parts[0]?.price.list` the `?.` guards only `parts[0]`. Quote lines are modelled with a present price.
- `Enum.Parse` also accepts a comma-separated list of names (a flags combination). That form is not modelled.
- The registered dialog names ("searchDialog", "loginDialog", "choiceDialog") are not modelled; dialogs are identified by `DialogId`.
- Cart.DeleteParts: assumes the remove request carries the payload. `HttpClient.DeleteAsync` has only the `(string)`, `(Uri)`, `(string, CancellationToken)` and `(Uri, CancellationToken)` overloads. So `DeleteAsync(url, content)` at PartsTechAPI.cs:209 binds only when the payload is a `CancellationToken`, and then no payload is sent. Any other payload raises a binder exception.
- The recognizer (LUIS) and configuration loading (Startup.cs, BotService.cs) are external. A null recognizer result is not modelled. The canned greeting, help and none texts live in a file that is not part of this model.
- Concurrency: `async void`, `.Wait()` in the constructor and shared use of the client are out of scope. All operations are sequential.
- Time: `DateTime.Now` is an integer number of seconds. `TotalSeconds` is fractional in the source.
- The constant-returning stubs `retriveBuyersGuide` and `setShopingInformation` are left out. `CreateCart` appears only as the `Created` event.
- The hard-coded credentials are left out. The partner login is the same `Tokens.Authorize` with the credentials left out.

## Findings

| source | as written | input that shows it | evidently intended | confidence | as-written member | corrected member |
|---|---|---|---|---|---|---|
| SellerBot/EmptyBot/Services/PartsTechAPI.cs:197-201 | With no cart, the add calls itself before updating the flag. The self-call sees the same state, so it never returns. | `_cartExists == false` and a payload object of a class that declares a public instance `ToList()` method returning a `List<object>`, which is what `CreateCart`'s `List<dynamic>` parameter accepts at line 199 (other payloads raise at that call first). Nothing in the bot calls `AddNewPartToCart`: the AddCart branch is empty (EmptyBotBot.cs:280-281). | Create the cart, add once, and leave the flag true | high, not executed | Cart.AddAsWrittenNeverReturns | Cart.AddPart |
| SellerBot/EmptyBot/Services/PartsTechAPI.cs:78 | The guard compares `logTime - now` with the lifetime. So it fires for every token obtained in the past. | lifetime 3600 s, `logTime = now - 10`. This cannot happen in the bot as shipped: `_expires_in` is never assigned, so it stays 0 (`Conversations.LifetimeNeverAssigned`) and both guards fire (`Tokens.GuardsAgreeWhileLifetimeUnset`), and nothing calls `refreshAcces`. | Refresh once `now - logTime` reaches the lifetime | medium, not executed | Tokens.AsWrittenGuardCounterexample | Tokens.CorrectedGuardSparesFreshToken |
| SellerBot/EmptyBot/Services/PartsTechAPI.cs:87 | The deserialized JSON value is awaited through `dynamic`. It has no awaiter, so the refresh raises before either token is assigned. | guard fires, any response body. Nothing in the bot calls `refreshAcces`. | Read the body without `await` and store both tokens | medium, not executed | Tokens.RefreshAsWritten | Tokens.Refresh |

=== FILE: cart.dfy ===
/** The one-bit cart state of the parts-catalog client and the operations it
    guards: adding a part, removing parts and listing the cart. The flag is a
    plain boolean passed in and returned; remote requests appear as events. */
module Cart {
  import opened Outcomes

  /** The request payload a caller hands to a cart operation. */
  datatype Content = Content(body: string)

  /** What a cart operation does outside the client: run the local
      cart-creation stub, post an add-part request, send a remove-parts
      request, or request the cart contents. */
  datatype CartEvent = Created | AddPosted(content: Content) | RemoveSent(content: Content) | InfoRequested

  /** How a cart operation ended: normally, by raising, or (for the
      fuel-bounded model of the self-recursive add) by exhausting its fuel. */
  datatype CartStatus = Done | Raised(fault: Fault) | OutOfFuel

  datatype CartRun = CartRun(events: seq<CartEvent>, cartExists: bool, status: CartStatus)

  /** The flag of a freshly constructed client. */
  const InitialCartExists := false

  /** Number of cart-creation events in a sequence of events. */
  function CountCreated(events: seq<CartEvent>): nat
  {
    if events == [] then 0
    else (if events[0] == Created then 1 else 0) + CountCreated(events[1..])
  }

  /** Number of add-part requests in a sequence of events. */
  function CountPosted(events: seq<CartEvent>): nat
  {
    if events == [] then 0
    else (if events[0].AddPosted? then 1 else 0) + CountPosted(events[1..])
  }

  lemma {:induction false} CountCreatedAppend(a: seq<CartEvent>, b: seq<CartEvent>)
    ensures CountCreated(a + b) == CountCreated(a) + CountCreated(b)
  {
    if a != [] {
      assert (a + b)[0] == a[0];
      assert (a + b)[1..] == a[1..] + b;
      CountCreatedAppend(a[1..], b);
    } else {
      assert a + b == b;
    }
  }

  lemma {:induction false} CountPostedAppend(a: seq<CartEvent>, b: seq<CartEvent>)
    ensures CountPosted(a + b) == CountPosted(a) + CountPosted(b)
  {
    if a != [] {
      assert (a + b)[0] == a[0];
      assert (a + b)[1..] == a[1..] + b;
      CountPostedAppend(a[1..], b);
    } else {
      assert a + b == b;
    }
  }

  /** `n` consecutive runs of the cart-creation stub. */
  function Creations(n: nat): seq<CartEvent>
  {
    if n == 0 then [] else [Created] + Creations(n - 1)
  }

  // ---------------------------------------------------------------------
  // Adding a part, as written

  /** The branch condition of the written add: the create-and-retry branch
      is taken unless a cart exists and the payload is non-null. */
  predicate TakesCreateBranch(cartExists: bool, content: Option<Content>)
  {
    !(cartExists && content.Some?)
  }

  /** The add operation as written, with `fuel` bounding the depth of its
      self-call. With a cart and a non-null payload it posts once. Otherwise
      it dereferences the payload (raising on null), runs the creation stub
      and calls itself with the same flag and payload; the flag toggle comes
      only after that call returns. Since the self-call sees the same state,
      it takes the same branch again, so the toggle is never reached and the
      flag never changes. */
  function AddAsWritten(cartExists: bool, content: Option<Content>, fuel: nat): (r: CartRun)
    ensures r.cartExists == cartExists
    ensures r.status.Done? <==> cartExists && content.Some?
    ensures r.status.Done? ==> r.events == [AddPosted(content.value)]
    ensures content.None? ==> r == CartRun([], cartExists, Raised(NullReference))
    ensures content.Some? ==> |r.events| >= 1
    decreases fuel
  {
    if !TakesCreateBranch(cartExists, content) then CartRun([AddPosted(content.value)], cartExists, Done)
    else if content.None? then CartRun([], cartExists, Raised(NullReference))
    else if fuel == 0 then CartRun([Created], cartExists, OutOfFuel)
    else
      var inner := AddAsWritten(cartExists, content, fuel - 1);
      CartRun([Created] + inner.events,
              if inner.status.Done? then !inner.cartExists else inner.cartExists,
              inner.status)
  }

  /** Adding a non-null payload while no cart exists never returns, however
      much fuel is given: each level runs the creation stub once and calls
      itself again, nothing is ever posted and the flag stays false. */
  lemma {:induction false} AddAsWrittenNeverReturns(content: Content, fuel: nat)
    ensures AddAsWritten(false, Some(content), fuel) == CartRun(Creations(fuel + 1), false, OutOfFuel)
  {
    if fuel > 0 {
      AddAsWrittenNeverReturns(content, fuel - 1);
    }
  }

  // ---------------------------------------------------------------------
  // Adding a part, corrected

  /** Make sure a cart exists: run the creation stub only when there is none.
      Afterwards the flag is set. */
  function EnsureCart(cartExists: bool): (r: CartRun)
    ensures r.cartExists && r.status == Done
    ensures forall e :: e in r.events ==> e == Created
    ensures CountCreated(r.events) == (if cartExists then 0 else 1)
    ensures CountPosted(r.events) == 0
  {
    if cartExists then CartRun([], true, Done) else CartRun([Created], true, Done)
  }

  /** `n` consecutive calls of EnsureCart, with their events in order. */
  function EnsureCartTimes(cartExists: bool, n: nat): (r: CartRun)
    decreases n
  {
    if n == 0 then CartRun([], cartExists, Done)
    else
      var first := EnsureCart(cartExists);
      var rest := EnsureCartTimes(first.cartExists, n - 1);
      CartRun(first.events + rest.events, rest.cartExists, Done)
  }

  /** Cart creation is idempotent: any positive number of EnsureCart calls
      creates the cart at most once, and exactly once when none existed. */
  lemma {:induction false} EnsureCartIdempotent(cartExists: bool, n: nat)
    requires n >= 1
    ensures EnsureCartTimes(cartExists, n).cartExists
    ensures CountCreated(EnsureCartTimes(cartExists, n).events) == (if cartExists then 0 else 1)
    decreases n
  {
    var first := EnsureCart(cartExists);
    var rest := EnsureCartTimes(true, n - 1);
    if n - 1 >= 1 {
      EnsureCartIdempotent(true, n - 1);
    }
    CountCreatedAppend(first.events, rest.events);
  }

  /** The corrected add: a null payload is reported, otherwise the cart is
      created if needed and the part is posted exactly once. The flag is set
      afterwards. */
  function AddPart(cartExists: bool, content: Option<Content>): (r: CartRun)
    ensures content.None? ==> r == CartRun([], cartExists, Raised(NullReference))
    ensures content.Some? ==> r.status == Done && r.cartExists
    ensures content.Some? ==> CountPosted(r.events) == 1 && r.events[|r.events| - 1] == AddPosted(content.value)
    ensures content.Some? ==> forall e :: e in r.events ==> e == Created || e == AddPosted(content.value)
    ensures CountCreated(r.events) == (if cartExists || content.None? then 0 else 1)
  {
    match content
    case None => CartRun([], cartExists, Raised(NullReference))
    case Some(c) =>
      var ensured := EnsureCart(cartExists);
      CountCreatedAppend(ensured.events, [AddPosted(c)]);
      CountPostedAppend(ensured.events, [AddPosted(c)]);
      CartRun(ensured.events + [AddPosted(c)], ensured.cartExists, Done)
  }

  /** When a cart exists, the corrected add behaves exactly like the written
      one, for any fuel. */
  lemma AddPartAgreesWithCart(content: Option<Content>, fuel: nat)
    ensures AddPart(true, content) == AddAsWritten(true, content, fuel)
  {
  }

  /** With a non-null payload the written add takes its create branch (and
      runs the creation stub first) exactly when no cart exists; on that
      branch the toggle `!cartExists` yields the flag the corrected add
      leaves behind. */
  lemma ToggleIsSetInCreateBranch(cartExists: bool, c: Content, fuel: nat)
    ensures TakesCreateBranch(cartExists, Some(c)) <==> AddAsWritten(cartExists, Some(c), fuel).events[0] == Created
    ensures TakesCreateBranch(cartExists, Some(c)) ==> !cartExists == AddPart(cartExists, Some(c)).cartExists
  {
  }

  // ---------------------------------------------------------------------
  // Removing parts and listing

  /** Remove parts: send the request when a cart exists, raise otherwise.
      The flag never changes. */
  function DeleteParts(cartExists: bool, content: Content): (r: CartRun)
    ensures r.cartExists == cartExists
    ensures r.status.Done? <==> cartExists
    ensures cartExists ==> r.events == [RemoveSent(content)]
    ensures !cartExists ==> r.status == Raised(NoCart) && r.events == []
    ensures CountCreated(r.events) == 0 && CountPosted(r.events) == 0
  {
    if cartExists then CartRun([RemoveSent(content)], cartExists, Done)
    else CartRun([], cartExists, Raised(NoCart))
  }

  /** The result of listing the cart: the response (null without a cart). */
  datatype Listing = Listing(items: Option<string>, events: seq<CartEvent>, cartExists: bool)

  /** List the cart: with a cart, request its contents and return the
      response; without one, return null and send nothing. The flag never
      changes. */
  function GetCartItems(cartExists: bool, response: string): (r: Listing)
    ensures r.cartExists == cartExists
    ensures r.items.Some? <==> cartExists
    ensures r.items.Some? ==> r.items.value == response
    ensures cartExists ==> r.events == [InfoRequested]
    ensures !cartExists ==> r.events == []
  {
    if cartExists then Listing(Some(response), [InfoRequested], cartExists)
    else Listing(None, [], cartExists)
  }
}

=== FILE: conversations.dfy ===
/** Whole conversations: a sequence of turns folded over the session and the
    token state, with what complete dialogs do end to end. */
module Conversations {
  import opened Outcomes
  import Tokens
  import opened Responses
  import opened Dialogs
  import opened Dispatcher

  /** The state carried from turn to turn. */
  datatype Bot = Bot(session: Session, tokens: Tokens.TokenState)

  /** One inbound activity: the recognizer output and the remote answers. */
  datatype Step = Step(input: Input, env: Env)

  datatype RunResult = RunResult(bot: Bot, outcomes: seq<TurnOutcome>, replies: seq<Reply>, calls: seq<Call>)

  /** Number of turns that completed and saved (ignored and raised turns
      do not save). */
  function CountSaved(outcomes: seq<TurnOutcome>): nat
  {
    if outcomes == [] then 0
    else (if outcomes[0].Saved? then 1 else 0) + CountSaved(outcomes[1..])
  }

  /** Process the messages in order, one turn each. */
  function Run(b: Bot, steps: seq<Step>): (r: RunResult)
    ensures |r.outcomes| == |steps|
    ensures |r.calls| <= |steps|
    decreases |steps|
  {
    if steps == [] then RunResult(b, [], [], [])
    else
      var turn := Turn(b.session, b.tokens, steps[0].input, steps[0].env);
      var rest := Run(Bot(turn.session, turn.tokens), steps[1..]);
      RunResult(rest.bot, [turn.outcome] + rest.outcomes, turn.replies + rest.replies, turn.calls + rest.calls)
  }

  /** Over any conversation, the session is saved exactly once per turn that
      completed, and never for a turn that raised. */
  lemma {:induction false} RunSavesOncePerCompletedTurn(b: Bot, steps: seq<Step>)
    ensures Run(b, steps).bot.session.saves == b.session.saves + CountSaved(Run(b, steps).outcomes)
    decreases |steps|
  {
    if steps != [] {
      var turn := Turn(b.session, b.tokens, steps[0].input, steps[0].env);
      RunSavesOncePerCompletedTurn(Bot(turn.session, turn.tokens), steps[1..]);
      var r := Run(b, steps);
      assert r.outcomes[1..] == Run(Bot(turn.session, turn.tokens), steps[1..]).outcomes;
    }
  }

  /** Over any conversation, sessions stay well formed. */
  lemma {:induction false} RunPreservesWf(b: Bot, steps: seq<Step>)
    requires Wf(b.session)
    ensures Wf(Run(b, steps).bot.session)
    decreases |steps|
  {
    if steps != [] {
      var turn := Turn(b.session, b.tokens, steps[0].input, steps[0].env);
      TurnWf(b.session, b.tokens, steps[0].input, steps[0].env);
      RunPreservesWf(Bot(turn.session, turn.tokens), steps[1..]);
    }
  }

  /** A conversation that starts from the empty record stays well formed,
      and its save count is the number of completed turns. */
  lemma NewConversation(t: Tokens.TokenState, steps: seq<Step>)
    ensures Wf(Run(Bot(EmptySession, t), steps).bot.session)
    ensures Run(Bot(EmptySession, t), steps).bot.session.saves == CountSaved(Run(Bot(EmptySession, t), steps).outcomes)
  {
    RunPreservesWf(Bot(EmptySession, t), steps);
    RunSavesOncePerCompletedTurn(Bot(EmptySession, t), steps);
  }

  /** No turn of any conversation assigns the token lifetime: it keeps the
      value the client was constructed with. */
  lemma {:induction false} LifetimeNeverAssigned(b: Bot, steps: seq<Step>)
    ensures Run(b, steps).bot.tokens.expiresIn == b.tokens.expiresIn
    decreases |steps|
  {
    if steps != [] {
      var turn := Turn(b.session, b.tokens, steps[0].input, steps[0].env);
      assert turn.tokens.expiresIn == b.tokens.expiresIn;
      LifetimeNeverAssigned(Bot(turn.session, turn.tokens), steps[1..]);
    }
  }

  /** Across a conversation the tokens change only if some turn made a
      login call. */
  lemma {:induction false} TokensChangeOnlyByLogin(b: Bot, steps: seq<Step>)
    ensures Run(b, steps).bot.tokens != b.tokens ==> exists c :: c in Run(b, steps).calls && c.LoginCall?
    decreases |steps|
  {
    if steps != [] {
      var turn := Turn(b.session, b.tokens, steps[0].input, steps[0].env);
      var rest := Run(Bot(turn.session, turn.tokens), steps[1..]);
      assert Run(b, steps).calls == turn.calls + rest.calls;
      TokensChangeOnlyByLogin(Bot(turn.session, turn.tokens), steps[1..]);
      if turn.tokens != b.tokens {
        assert turn.calls[0] in Run(b, steps).calls;
      } else if rest.bot.tokens != turn.tokens {
        var c :| c in rest.calls && c.LoginCall?;
        assert c in Run(b, steps).calls;
      }
    }
  }

  /** The login conversation: the Login intent, then a user name, then a
      password. It takes exactly two prompts and one login call carrying
      the two replies, answers "Could not login" exactly when the login
      answer was not a parsed 200, and saves three times. The user name is
      held while the password prompt waits; when the dialog ends, both
      values go with it. */
  lemma LoginConversation(s: Session, t: Tokens.TokenState, first: Step, user: string, password: string,
                          e2: Env, e3: Env, other: map<string, seq<string>>)
    requires s.active.None? && first.input.kind.MessageActivity? && first.input.intentName == "Login"
    ensures var r1 := Turn(s, t, first.input, first.env);
            var r2 := Turn(r1.session, r1.tokens, Input(MessageActivity, "", other, user), e2);
            var r3 := Turn(r2.session, r2.tokens, Input(MessageActivity, "", other, password), e3);
            && r1.replies == [UserPrompt] && r2.replies == [PasswordPrompt]
            && r1.calls == [] && r2.calls == [] && r3.calls == [LoginCall(user, password)]
            && (r3.replies == [LoginFailed] <==> !e3.login.Ok?)
            && r2.session.values == map[UserKey := user]
            && r3.session.active.None? && r3.session.values == map[]
            && r3.session.saves == s.saves + 3
            && r3.tokens == Tokens.Authorize(t, e3.now, e3.login).tokens
  {
  }

  /** The search dialog end to end: StartSearch, a piece id, a keyword. The
      piece id is held while the keyword prompt waits, the last message is
      only "Piece info:", no remote call is made at any point, and when the
      dialog ends nothing it collected is left in the session. */
  lemma SearchDialogConversation(s: Session, t: Tokens.TokenState, first: Step, piece: string, keyword: string,
                                 e2: Env, e3: Env, other: map<string, seq<string>>)
    requires s.active.None? && first.input.kind.MessageActivity? && first.input.intentName == "StartSearch"
    ensures var r1 := Turn(s, t, first.input, first.env);
            var r2 := Turn(r1.session, r1.tokens, Input(MessageActivity, "", other, piece), e2);
            var r3 := Turn(r2.session, r2.tokens, Input(MessageActivity, "", other, keyword), e3);
            && r1.replies == [PiecePrompt] && r2.replies == [KeywordPrompt] && r3.replies == [PieceInfo]
            && r1.calls == [] && r2.calls == [] && r3.calls == []
            && r2.session.values == map[PieceKey := piece]
            && r3.session.active.None? && r3.session.values == map[]
            && r3.tokens == t
  {
  }

  /** A successful Search followed by "Yes" quotes the very part number the
      search stored; followed by "No" it makes no call; followed by anything
      else it asks again and stays in the quote dialog. */
  lemma SearchThenQuote(s: Session, t: Tokens.TokenState, first: Step, part: Part, e2: Env,
                        answer: string, other: map<string, seq<string>>)
    requires s.active.None? && first.input.kind.MessageActivity? && first.input.intentName == "Search"
    requires PartIdEntity in first.input.entities && first.input.entities[PartIdEntity] != []
    requires first.env.lookup == Ok(part) && |part.images| >= 1
    ensures var r1 := Turn(s, t, first.input, first.env);
            var r2 := Turn(r1.session, r1.tokens, Input(MessageActivity, "", other, answer), e2);
            && r1.session.active == Some(Frame(ChoiceDialog, 0))
            && (answer == "Yes" ==> r2.calls == [QuoteCall(part.number)])
            && (answer == "No" ==> r2.calls == [] && r2.replies == [] && r2.session.active.None?)
            && (answer !in QuoteChoices ==>
                  r2.calls == [] && r2.replies == [QuotePrompt] && r2.session.active == Some(Frame(ChoiceDialog, 0)))
  {
  }
}

=== FILE: dialogs.dfy ===
/** The three waterfall dialogs the bot registers, the per-conversation
    session they keep, and one step of whichever dialog is active. A frame
    `Frame(d, k)` means dialog `d` has run its step `k`, which prompted the
    user, and is waiting for the reply; the reply resumes step `k + 1`. */
module Dialogs {
  import opened Outcomes
  import Tokens
  import opened Responses

  datatype DialogId = SearchDialog | LoginDialog | ChoiceDialog

  /** Number of steps registered for each dialog. */
  function StepCount(d: DialogId): nat
  {
    match d
    case SearchDialog => 3
    case LoginDialog => 3
    case ChoiceDialog => 2
  }

  datatype Frame = Frame(dialog: DialogId, step: nat)

  /** The conversation record: the active dialog frame, the values the active
      dialog has collected (they belong to the dialog instance and go with it
      when it ends), the shared parameters written by the dispatcher, and how
      many times the record has been saved. */
  datatype Session = Session(
    active: Option<Frame>,
    values: map<string, string>,
    parameters: map<string, string>,
    saves: nat)

  /** The record of a conversation that has not had a turn yet. */
  const EmptySession := Session(None, map[], map[], 0)

  /** Keys of the values collected by the dialogs and of the parameter set
      by the part search. */
  const PieceKey := "piece"
  const KeywordKey := "keyword"
  const UserKey := "user"
  const PasswordKey := "password"
  const PartNumberKey := "partNumber"

  /** The three messages whose text lives outside this model. */
  datatype CannedMessage = GreetingsMessage | HelpMessage | NoneMessage

  /** One activity sent to the user. */
  datatype Reply =
    | Text(body: string)
    | ChoicePrompt(prompt: string, choices: seq<string>)
    | ImageCard(url: string, contentType: string, name: string)
    | Canned(message: CannedMessage)

  /** A remote call the bot makes through the catalog client. */
  datatype Call =
    | LoginCall(user: string, key: string)
    | LookupCall(partId: string)
    | QuoteCall(partNumber: string)
    | ShopCall

  const QuoteChoices: seq<string> := ["Yes", "No"]

  const PiecePrompt := Text("Which PIECE id?")
  const KeywordPrompt := Text("Please, insert a keyword")
  const UserPrompt := Text("What's your username?")
  const PasswordPrompt := Text("What's your password?")
  const QuotePrompt := ChoicePrompt("Would you like to quote this item?", QuoteChoices)
  const PieceInfo := Text("Piece info:")
  const LoginFailed := Text("Could not login")
  const LoginSucceeded := Text("Login succesful")

  function QuoteMessage(line: QuoteLine): Reply
  {
    Text("We have this part in this store " + line.storeName + " and costs $" + line.listPrice + " ")
  }

  /** The prompt the first step of each dialog sends. */
  function FirstPrompt(d: DialogId): Reply
  {
    match d
    case SearchDialog => PiecePrompt
    case LoginDialog => UserPrompt
    case ChoiceDialog => QuotePrompt
  }

  /** What a piece of turn logic produced: replies already sent, remote calls
      made, the session and token state it leaves behind, and the exception
      that cut it short, if any. */
  datatype Effect = Effect(
    replies: seq<Reply>,
    calls: seq<Call>,
    session: Session,
    tokens: Tokens.TokenState,
    fault: Option<Fault>)

  /** Start dialog `d`: its first step runs at once and prompts the user.
      Collected values start empty; parameters and saves are untouched. */
  function Begin(d: DialogId, s: Session): (r: Session)
    ensures r.active == Some(Frame(d, 0))
    ensures r.values == map[]
    ensures r.parameters == s.parameters && r.saves == s.saves
  {
    s.(active := Some(Frame(d, 0)), values := map[])
  }

  /** End the active dialog: its frame is popped together with the values
      it collected. */
  function EndDialog(s: Session): Session
  {
    s.(active := None, values := map[])
  }

  /** The waterfall has no step `k + 1`: the dialog ends silently. */
  function Ended(s: Session, t: Tokens.TokenState): Effect
  {
    Effect([], [], EndDialog(s), t, None)
  }

  /** Feed the user's reply `text` to the active dialog. Text prompts accept
      any reply; the quote prompt accepts only its two choices and otherwise
      asks again without moving. The terminal step of each dialog ends it. */
  function Continue(s: Session, t: Tokens.TokenState, text: string, env: Env): (r: Effect)
    ensures r.session.parameters == s.parameters && r.session.saves == s.saves
    ensures |r.calls| <= 1
    ensures r.session.active.Some? ==> s.active.Some? && r.session.active.value.dialog == s.active.value.dialog
    ensures r.tokens != t ==> |r.calls| == 1 && r.calls[0].LoginCall?
    ensures r.calls != [] ==> s.active.Some? && s.active.value.dialog != SearchDialog
    ensures s.active.Some? && r.session.active.None? ==> r.session.values == map[]
  {
    match s.active
    case None => Effect([], [], s, t, None)
    case Some(f) =>
      var next := f.step + 1;
      match f.dialog
      case SearchDialog =>
        if next == 1 then
          Effect([KeywordPrompt], [], s.(active := Some(Frame(SearchDialog, 1)), values := s.values[PieceKey := text]), t, None)
        else if next == 2 then
          Effect([PieceInfo], [], EndDialog(s.(values := s.values[KeywordKey := text])), t, None)
        else Ended(s, t)
      case LoginDialog =>
        if next == 1 then
          Effect([PasswordPrompt], [], s.(active := Some(Frame(LoginDialog, 1)), values := s.values[UserKey := text]), t, None)
        else if next == 2 then
          var values := s.values[PasswordKey := text];
          if UserKey !in values then
            Effect([], [], s.(values := values), t, Some(MissingKey(UserKey)))
          else
            var login := Tokens.Authorize(t, env.now, env.login);
            Effect([if login.result.None? then LoginFailed else LoginSucceeded],
                   [LoginCall(values[UserKey], values[PasswordKey])],
                   EndDialog(s.(values := values)), login.tokens, None)
        else Ended(s, t)
      case ChoiceDialog =>
        if next == 1 then
          if text == QuoteChoices[0] then ConfirmYes(s, t, env)
          else if text == QuoteChoices[1] then Effect([], [], EndDialog(s), t, None)
          else Effect([QuotePrompt], [], s, t, None)
        else Ended(s, t)
  }

  /** The quote branch: read the stored part number, ask for a quote and
      report the first line's store name and price. */
  function ConfirmYes(s: Session, t: Tokens.TokenState, env: Env): (r: Effect)
    ensures r.session.parameters == s.parameters && r.session.saves == s.saves && r.tokens == t
    ensures PartNumberKey in s.parameters ==> r.calls == [QuoteCall(s.parameters[PartNumberKey])]
    ensures PartNumberKey !in s.parameters ==> r.calls == [] && r.fault == Some(MissingKey(PartNumberKey))
    ensures r.fault.None? <==> PartNumberKey in s.parameters && env.quote.Ok? && |env.quote.payload.parts| > 0
    ensures r.fault.None? ==>
              r.session == EndDialog(s) && r.replies == [QuoteMessage(env.quote.payload.parts[0])]
    ensures r.fault.Some? ==> r.replies == []
  {
    if PartNumberKey !in s.parameters then
      Effect([], [], s, t, Some(MissingKey(PartNumberKey)))
    else
      var call := QuoteCall(s.parameters[PartNumberKey]);
      match env.quote
      case Ok(quote) =>
        if |quote.parts| == 0 then Effect([], [call], s, t, Some(IndexOutOfRange))
        else Effect([QuoteMessage(quote.parts[0])], [call], EndDialog(s), t, None)
      case NonOk => Effect([], [call], s, t, Some(BadResponse))
      case ParseFail => Effect([], [call], s, t, Some(BadResponse))
  }

  // ---------------------------------------------------------------------
  // Per-dialog facts

  /** Well-formed sessions: with no dialog active nothing collected is left;
      otherwise the active frame waits on a prompting step (never the terminal
      one), and the values the later steps read were stored by the earlier
      ones. */
  predicate Wf(s: Session)
  {
    match s.active
    case None => s.values == map[]
    case Some(f) =>
      && f.step + 1 < StepCount(f.dialog)
      && (f.dialog == SearchDialog && f.step == 1 ==> PieceKey in s.values)
      && (f.dialog == LoginDialog && f.step == 1 ==> UserKey in s.values)
  }

  /** Starting a dialog yields a well-formed session. */
  lemma BeginWf(d: DialogId, s: Session)
    ensures Wf(Begin(d, s))
  {
  }

  /** A step of the active dialog keeps the session well formed, and on a
      well-formed session the only exceptions come from the quote branch. */
  lemma ContinueWf(s: Session, t: Tokens.TokenState, text: string, env: Env)
    requires Wf(s)
    ensures Wf(Continue(s, t, text, env).session)
    ensures Continue(s, t, text, env).fault.Some? ==> s.active == Some(Frame(ChoiceDialog, 0)) && text == "Yes"
  {
  }

  /** Search dialog: the reply to the piece prompt is stored under "piece"
      and the keyword prompt follows; after the reply to the keyword prompt
      the only message is "Piece info:", no catalog call is made and the
      dialog ends, discarding what it collected. */
  lemma SearchDialogSteps(s: Session, t: Tokens.TokenState, text: string, env: Env)
    ensures s.active == Some(Frame(SearchDialog, 0)) ==>
              Continue(s, t, text, env) ==
              Effect([KeywordPrompt], [], s.(active := Some(Frame(SearchDialog, 1)), values := s.values[PieceKey := text]), t, None)
    ensures s.active == Some(Frame(SearchDialog, 1)) ==>
              var r := Continue(s, t, text, env);
              && r.replies == [PieceInfo] && r.calls == [] && r.fault.None?
              && r.session == EndDialog(s)
  {
  }

  /** Login dialog: the reply to the username prompt is stored under "user";
      the reply to the password prompt is stored under "password", one login
      request carries both, the reply is "Could not login" exactly when the
      login returned null, and the dialog ends, discarding both values. */
  lemma LoginDialogSteps(s: Session, t: Tokens.TokenState, text: string, env: Env)
    ensures s.active == Some(Frame(LoginDialog, 0)) ==>
              Continue(s, t, text, env) ==
              Effect([PasswordPrompt], [], s.(active := Some(Frame(LoginDialog, 1)), values := s.values[UserKey := text]), t, None)
    ensures s.active == Some(Frame(LoginDialog, 1)) && UserKey in s.values ==>
              var r := Continue(s, t, text, env);
              var login := Tokens.Authorize(t, env.now, env.login);
              && r.calls == [LoginCall(s.values[UserKey], text)]
              && (r.replies == [LoginFailed] <==> login.result.None?)
              && (r.replies == [LoginSucceeded] <==> login.result.Some?)
              && r.tokens == login.tokens
              && r.session == EndDialog(s) && r.fault.None?
  {
  }

  /** Quote dialog: "No" ends it with no call and no message; any reply
      other than the two choices repeats the prompt and changes nothing;
      "Yes" makes exactly one quote call, with the stored part number. */
  lemma ChoiceDialogSteps(s: Session, t: Tokens.TokenState, text: string, env: Env)
    requires s.active == Some(Frame(ChoiceDialog, 0))
    ensures text == "No" ==> Continue(s, t, text, env) == Effect([], [], EndDialog(s), t, None)
    ensures text !in QuoteChoices ==> Continue(s, t, text, env) == Effect([QuotePrompt], [], s, t, None)
    ensures text == "Yes" && PartNumberKey in s.parameters ==>
              Continue(s, t, text, env).calls == [QuoteCall(s.parameters[PartNumberKey])]
  {
  }
}

=== FILE: dispatcher.dfy ===
/** One bot turn: resume the active dialog, or parse the recognized intent
    label and run that intent's branch, then save the session once. An
    exception skips the save, so the dialog progress of that turn is lost;
    the parameters and the token state live in long-lived objects and keep
    whatever the turn wrote before the exception. */
module Dispatcher {
  import opened Outcomes
  import Tokens
  import opened Responses
  import opened Dialogs

  /** The intent enumeration. `NoneIntent` is the member named "None". */
  datatype Intent =
    | Search | StartSearch | AddCart | Shop | GetQuote | Greetings
    | Help | Login | NoneIntent | RemoveCart | RequestQuote

  /** The name of each enumeration member. */
  function IntentName(i: Intent): string
  {
    match i
    case Search => "Search"
    case StartSearch => "StartSearch"
    case AddCart => "AddCart"
    case Shop => "Shop"
    case GetQuote => "GetQuote"
    case Greetings => "Greetings"
    case Help => "Help"
    case Login => "Login"
    case NoneIntent => "None"
    case RemoveCart => "RemoveCart"
    case RequestQuote => "RequestQuote"
  }

  /** Parse an intent label into the enumeration by member name; null when
      the label names no member (the caller raises). */
  function ParseIntent(intentName: string): (r: Option<Intent>)
    ensures r.Some? ==> IntentName(r.value) == intentName
    ensures r.None? ==> forall i :: IntentName(i) != intentName
  {
    if intentName == "Search" then Some(Search)
    else if intentName == "StartSearch" then Some(StartSearch)
    else if intentName == "AddCart" then Some(AddCart)
    else if intentName == "Shop" then Some(Shop)
    else if intentName == "GetQuote" then Some(GetQuote)
    else if intentName == "Greetings" then Some(Greetings)
    else if intentName == "Help" then Some(Help)
    else if intentName == "Login" then Some(Login)
    else if intentName == "None" then Some(NoneIntent)
    else if intentName == "RemoveCart" then Some(RemoveCart)
    else if intentName == "RequestQuote" then Some(RequestQuote)
    else None
  }

  /** Parsing inverts naming: every member's name parses back to it. */
  lemma ParseIntentRoundTrip(i: Intent)
    ensures ParseIntent(IntentName(i)) == Some(i)
  {
  }

  // ---------------------------------------------------------------------
  // Pure helpers

  /** Upper-case one character; only the ASCII letters a-z change. */
  function UpperChar(c: char): char
  {
    if 'a' <= c <= 'z' then (c as int - 32) as char else c
  }

  predicate IsLowerAscii(c: char)
  {
    'a' <= c <= 'z'
  }

  /** Upper-case a part id, character by character. */
  function Upper(s: string): (r: string)
    ensures |r| == |s|
    ensures forall i :: 0 <= i < |s| ==> r[i] == UpperChar(s[i])
    ensures forall i :: 0 <= i < |r| ==> !IsLowerAscii(r[i])
  {
    if s == [] then [] else [UpperChar(s[0])] + Upper(s[1..])
  }

  /** Upper-casing is idempotent and leaves every non-letter in place. */
  lemma UpperIdempotent(s: string)
    ensures Upper(Upper(s)) == Upper(s)
    ensures forall i :: 0 <= i < |s| && !IsLowerAscii(s[i]) ==> Upper(s)[i] == s[i]
  {
  }

  /** The index of the image shown for a part with `count` images: the
      second when the list has at least two, the only one when it has one,
      and -1 (out of bounds) when it is empty. */
  function ImageIndex(count: nat): (r: int)
    ensures 0 <= r < count <==> count >= 1
    ensures count == 0 ==> r == -1
    ensures count == 1 ==> r == 0
    ensures count >= 2 ==> r == 1
  {
    if count > 2 then 1 else count - 1
  }

  // ---------------------------------------------------------------------
  // The turn

  /** The type of an inbound activity: a user message, or anything else
      (a conversation update, a typing indicator, ...). */
  datatype ActivityKind = MessageActivity | OtherActivity(activityType: string)

  /** One inbound activity: its type, what the recognizer extracted from
      the utterance, and the utterance. */
  datatype Input = Input(kind: ActivityKind, intentName: string, entities: map<string, seq<string>>, text: string)

  const PartIdEntity := "PId"

  const Searching := Text("Searching...")

  function NameMessage(name: string): Reply
  {
    Text("Sure, this is the name:\n " + name + ", and this is an image")
  }

  /** The Search branch: announce the search, look up the upper-cased part
      id, store the part number, show the name and one image, then start the
      quote dialog. */
  function SearchBranch(s: Session, t: Tokens.TokenState, input: Input, env: Env): (r: Effect)
    ensures r.tokens == t && r.session.saves == s.saves
    ensures |r.replies| >= 1 && r.replies[0] == Searching
    ensures PartIdEntity !in input.entities || input.entities[PartIdEntity] == [] ==>
              r.calls == [] && r.fault == Some(MissingEntity(PartIdEntity)) && r.session == s
    ensures PartIdEntity in input.entities && input.entities[PartIdEntity] != [] ==>
              r.calls == [LookupCall(Upper(input.entities[PartIdEntity][0]))]
    ensures r.session.parameters == s.parameters ||
            (env.lookup.Ok? && r.session.parameters == s.parameters[PartNumberKey := env.lookup.payload.number])
    ensures r.fault.Some? ==> r.replies == [Searching]
    ensures r.fault.None? ==> env.lookup.Ok?
    ensures r.fault.None? && env.lookup.Ok? ==>
              var part := env.lookup.payload;
              && |part.images| >= 1
              && r.session == Begin(ChoiceDialog, s.(parameters := s.parameters[PartNumberKey := part.number]))
              && r.replies == [Searching, NameMessage(part.name),
                               ImageCard(part.images[ImageIndex(|part.images|)], "image/png", part.name),
                               QuotePrompt]
  {
    if PartIdEntity !in input.entities || input.entities[PartIdEntity] == [] then
      Effect([Searching], [], s, t, Some(MissingEntity(PartIdEntity)))
    else
      var call := LookupCall(Upper(input.entities[PartIdEntity][0]));
      match env.lookup
      case Ok(part) =>
        var stored := s.(parameters := s.parameters[PartNumberKey := part.number]);
        var index := ImageIndex(|part.images|);
        if !(0 <= index < |part.images|) then
          Effect([Searching], [call], stored, t, Some(IndexOutOfRange))
        else
          Effect([Searching, NameMessage(part.name), ImageCard(part.images[index], "image/png", part.name),
                  FirstPrompt(ChoiceDialog)],
                 [call], Begin(ChoiceDialog, stored), t, None)
      case NonOk => Effect([Searching], [call], s, t, Some(BadResponse))
      case ParseFail => Effect([Searching], [call], s, t, Some(BadResponse))
  }

  /** The Shop branch: fetch the shop profile and send its phones and
      address; a profile without an address raises. */
  function ShopBranch(s: Session, t: Tokens.TokenState, env: Env): (r: Effect)
    ensures r.session == s && r.tokens == t && r.calls == [ShopCall]
    ensures r.fault.None? <==> env.shop.Ok? && env.shop.payload.address.Some?
    ensures r.fault.None? ==>
              var shop := env.shop.payload;
              r.replies == [Text("Sure!"),
                            Text("Here's the contact info tel:" + shop.phone + ", cel:" + shop.cellphone),
                            Text("Or visit the store at " + shop.address.value)]
    ensures r.fault.Some? ==> r.replies == []
  {
    match env.shop
    case Ok(shop) =>
      if shop.address.None? then Effect([], [ShopCall], s, t, Some(NullReference))
      else
        Effect([Text("Sure!"),
                Text("Here's the contact info tel:" + shop.phone + ", cel:" + shop.cellphone),
                Text("Or visit the store at " + shop.address.value)],
               [ShopCall], s, t, None)
    case NonOk => Effect([], [ShopCall], s, t, Some(BadResponse))
    case ParseFail => Effect([], [ShopCall], s, t, Some(BadResponse))
  }

  /** Intents accepted by the enumeration whose branch is empty. */
  predicate Inert(i: Intent)
  {
    i == AddCart || i == RemoveCart || i == GetQuote || i == RequestQuote
  }

  /** Run the branch of one intent. */
  function Dispatch(i: Intent, s: Session, t: Tokens.TokenState, input: Input, env: Env): (r: Effect)
    ensures r.session.saves == s.saves && r.tokens == t
    ensures |r.calls| <= 1
    ensures Inert(i) ==> r == Effect([], [], s, t, None)
    ensures i != Search ==> r.session.parameters == s.parameters
    ensures i == StartSearch ==> r == Effect([PiecePrompt], [], Begin(SearchDialog, s), t, None)
    ensures i == Login ==> r == Effect([UserPrompt], [], Begin(LoginDialog, s), t, None)
    ensures r.session.active != s.active ==> i in {Search, StartSearch, Login}
    ensures i == Greetings ==> r == Effect([Canned(GreetingsMessage)], [], s, t, None)
    ensures i == Help ==> r == Effect([Canned(HelpMessage)], [], s, t, None)
    ensures i == NoneIntent ==> r == Effect([Canned(NoneMessage)], [], s, t, None)
    ensures i == Shop ==> r.calls == [ShopCall] && r.session == s
  {
    match i
    case Search => SearchBranch(s, t, input, env)
    case StartSearch => Effect([FirstPrompt(SearchDialog)], [], Begin(SearchDialog, s), t, None)
    case AddCart => Effect([], [], s, t, None)
    case Shop => ShopBranch(s, t, env)
    case GetQuote => Effect([], [], s, t, None)
    case Greetings => Effect([Canned(GreetingsMessage)], [], s, t, None)
    case Help => Effect([Canned(HelpMessage)], [], s, t, None)
    case Login => Effect([FirstPrompt(LoginDialog)], [], Begin(LoginDialog, s), t, None)
    case NoneIntent => Effect([Canned(NoneMessage)], [], s, t, None)
    case RemoveCart => Effect([], [], s, t, None)
    case RequestQuote => Effect([], [], s, t, None)
  }

  /** How a turn ended: saved, ignored (not a message: nothing runs and
      nothing is saved), or cut short by an exception. */
  datatype TurnOutcome = Saved | Ignored | Threw(fault: Fault)

  datatype TurnResult = TurnResult(
    replies: seq<Reply>,
    calls: seq<Call>,
    session: Session,
    tokens: Tokens.TokenState,
    outcome: TurnOutcome)

  /** Close a turn: without an exception the session is saved (once);
      with one, the save is skipped, so the stored dialog frame and values
      stay as they were before the turn, while the parameters keep what
      the turn wrote. */
  function Commit(before: Session, e: Effect): (r: TurnResult)
    requires e.session.saves == before.saves
    ensures r.outcome.Saved? <==> e.fault.None?
    ensures r.session.saves == before.saves + (if e.fault.None? then 1 else 0)
    ensures r.session.parameters == e.session.parameters
    ensures e.fault.None? ==> r.session.active == e.session.active && r.session.values == e.session.values
    ensures e.fault.Some? ==> r.session.active == before.active && r.session.values == before.values
    ensures r.replies == e.replies && r.calls == e.calls && r.tokens == e.tokens
  {
    match e.fault
    case None => TurnResult(e.replies, e.calls, e.session.(saves := before.saves + 1), e.tokens, Saved)
    case Some(f) => TurnResult(e.replies, e.calls, before.(parameters := e.session.parameters), e.tokens, Threw(f))
  }

  /** One turn. An activity that is not a message is ignored: no recognizer
      call, no reply and no save. With a dialog active, the reply goes to
      that dialog and the intent label is not consulted. Otherwise the label is parsed (an
      unknown label raises before anything happens) and exactly one branch
      runs. Each turn saves at most once, makes at most one remote call and
      changes the tokens only through a login call. */
  function Turn(s: Session, t: Tokens.TokenState, input: Input, env: Env): (r: TurnResult)
    ensures r.session.saves == s.saves + (if r.outcome.Saved? then 1 else 0)
    ensures |r.calls| <= 1
    ensures r.tokens != t ==> r.calls != [] && r.calls[0].LoginCall?
    ensures r.outcome.Threw? ==> r.session.active == s.active && r.session.values == s.values
    ensures r.outcome.Ignored? <==> input.kind.OtherActivity?
    ensures input.kind.OtherActivity? ==> r == TurnResult([], [], s, t, Ignored)
    ensures input.kind.MessageActivity? && s.active.None? && ParseIntent(input.intentName).None? ==>
              r == TurnResult([], [], s, t, Threw(UnknownIntent))
    ensures r.session.parameters - {PartNumberKey} == s.parameters - {PartNumberKey}
  {
    if input.kind.OtherActivity? then TurnResult([], [], s, t, Ignored)
    else if s.active.Some? then
      Commit(s, Continue(s, t, input.text, env))
    else
      match ParseIntent(input.intentName)
      case None => TurnResult([], [], s, t, Threw(UnknownIntent))
      case Some(i) => Commit(s, Dispatch(i, s, t, input, env))
  }

  // ---------------------------------------------------------------------
  // Facts about one turn

  /** With a dialog active, the turn does not depend on the intent label or
      the entities, only on the utterance. */
  lemma ActiveTurnIgnoresIntent(s: Session, t: Tokens.TokenState, a: Input, b: Input, env: Env)
    requires s.active.Some? && a.kind == b.kind && a.text == b.text
    ensures Turn(s, t, a, env) == Turn(s, t, b, env)
  {
  }

  /** With a dialog active, a message turn whose step does not raise is that
      step followed by exactly one save. */
  lemma ActiveTurnContinues(s: Session, t: Tokens.TokenState, input: Input, env: Env)
    requires s.active.Some? && input.kind.MessageActivity?
    ensures var e := Continue(s, t, input.text, env);
            e.fault.None? ==> Turn(s, t, input, env) == TurnResult(e.replies, e.calls, e.session.(saves := s.saves + 1), e.tokens, Saved)
  {
  }

  /** The inert intents send nothing, call nothing and start nothing: the
      only effect is the save. */
  lemma InertIntentOnlySaves(s: Session, t: Tokens.TokenState, input: Input, env: Env)
    requires s.active.None? && input.kind.MessageActivity?
    requires ParseIntent(input.intentName).Some? && Inert(ParseIntent(input.intentName).value)
    ensures Turn(s, t, input, env) == TurnResult([], [], s.(saves := s.saves + 1), t, Saved)
  {
  }

  /** A known label with no active dialog runs exactly the branch it names
      and saves once when that branch completes. */
  lemma KnownIntentRunsOneBranch(s: Session, t: Tokens.TokenState, input: Input, env: Env, i: Intent)
    requires s.active.None? && input.kind.MessageActivity? && input.intentName == IntentName(i)
    ensures var e := Dispatch(i, s, t, input, env);
            && Turn(s, t, input, env).replies == e.replies
            && Turn(s, t, input, env).calls == e.calls
            && (Turn(s, t, input, env).outcome.Saved? <==> e.fault.None?)
  {
    ParseIntentRoundTrip(i);
  }

  /** A Search turn with a part id looks up that id upper-cased. When the
      lookup succeeds the part number is stored, even if the turn then
      raises on an empty image list; when the part has images, the quote
      dialog is started last and the session saved. */
  lemma SearchTurn(s: Session, t: Tokens.TokenState, input: Input, env: Env, id: string, part: Part)
    requires s.active.None? && input.kind.MessageActivity? && input.intentName == "Search"
    requires PartIdEntity in input.entities && input.entities[PartIdEntity] != []
    requires input.entities[PartIdEntity][0] == id && env.lookup == Ok(part)
    ensures var r := Turn(s, t, input, env);
            && r.calls == [LookupCall(Upper(id))]
            && r.session.parameters == s.parameters[PartNumberKey := part.number]
            && (|part.images| == 0 ==> r.outcome == Threw(IndexOutOfRange) && r.session.active.None?)
            && (|part.images| > 0 ==>
                  && r.outcome.Saved?
                  && r.session.active == Some(Frame(ChoiceDialog, 0))
                  && r.replies[|r.replies| - 1] == QuotePrompt
                  && r.replies[2] == ImageCard(part.images[ImageIndex(|part.images|)], "image/png", part.name))
  {
  }

  /** A turn keeps sessions well formed. */
  lemma TurnWf(s: Session, t: Tokens.TokenState, input: Input, env: Env)
    requires Wf(s)
    ensures Wf(Turn(s, t, input, env).session)
  {
    if input.kind.OtherActivity? {
    } else if s.active.Some? {
      ContinueWf(s, t, input.text, env);
    } else {
      match ParseIntent(input.intentName)
      case None =>
      case Some(i) =>
        BeginWf(SearchDialog, s);
        BeginWf(LoginDialog, s);
        if env.lookup.Ok? {
          BeginWf(ChoiceDialog, s.(parameters := s.parameters[PartNumberKey := env.lookup.payload.number]));
        }
    }
  }
}

=== FILE: outcomes.dfy ===
/** Shared result shapes: values that may be null, the outcome of a remote
    exchange, and the exceptions that abort a bot turn. */
module Outcomes {

  /** A value that may be null. */
  datatype Option<+T> = None | Some(value: T)

  /** One remote HTTP exchange as the caller sees it: a 200 response whose
      body parsed into the expected payload, a response with another status,
      or a 200 response whose body was not well-formed JSON. Transport
      failures are not part of the model. */
  datatype Remote<+T> = Ok(payload: T) | NonOk | ParseFail

  /** The exceptions a turn can raise. Each one aborts the rest of the turn. */
  datatype Fault =
    | UnknownIntent               // the intent label names no enumeration member
    | MissingEntity(name: string) // the recognizer returned no such entity
    | MissingKey(key: string)     // a dictionary read of an absent key
    | NullReference               // a member access on a null value
    | IndexOutOfRange             // a list read outside its bounds
    | BadResponse                 // a remote answer without the expected shape
    | NoCart                      // a cart removal while no cart exists
    | UnboundAwait                // awaiting a dynamic value that has no awaiter
}

=== FILE: parts_tech.dfy ===
/** The parts-catalog client object as a whole: its token state and its cart
    flag, and what constructing it does. */
module PartsTech {
  import opened Outcomes
  import Tokens
  import Cart

  datatype Api = Api(tokens: Tokens.TokenState, cartExists: bool)

  /** Construction clears the cart flag and logs in once with the configured
      partner identity (the same login operation the login dialog uses, with
      fixed credentials), at time `now`. */
  function Construct(now: int, response: Remote<Tokens.AuthBody>): (r: Api)
    ensures !r.cartExists
    ensures r.tokens.expiresIn == 0
    ensures r.tokens.logTime == now
    ensures r.tokens.access == (if response.Ok? then response.payload.accessToken else None)
    ensures r.tokens.refresh == (if response.Ok? then response.payload.refreshToken else None)
  {
    Api(Tokens.Authorize(Tokens.Initial, now, response).tokens, Cart.InitialCartExists)
  }

  /** The token lifetime is zero after construction and neither a login nor
      a refresh assigns it. (That no turn of any conversation assigns it is
      `Conversations.LifetimeNeverAssigned`.) */
  lemma LifetimeStaysZero(now: int, response: Remote<Tokens.AuthBody>, later: int,
                          login: Remote<Tokens.AuthBody>, refreshAt: int, answer: Tokens.RefreshResponse)
    ensures var a := Construct(now, response);
            var afterLogin := Tokens.Authorize(a.tokens, later, login).tokens;
            && Tokens.RefreshAsWritten(afterLogin, refreshAt, answer).tokens.expiresIn == 0
            && Tokens.Refresh(afterLogin, refreshAt, answer).tokens.expiresIn == 0
  {
  }
}

=== FILE: responses.dfy ===
/** The payloads of the catalog, quote and shop endpoints, reduced to the
    fields the bot reads, and the remote answers available to one turn. */
module Responses {
  import opened Outcomes
  import Tokens

  /** A catalog part: display name, part number and the medium-size URL of
      each image, in the order the catalog lists them. */
  datatype Part = Part(name: string, number: string, images: seq<string>)

  /** One line of a quote: the store's name and the list price. */
  datatype QuoteLine = QuoteLine(storeName: string, listPrice: string)

  datatype Quote = Quote(parts: seq<QuoteLine>)

  /** The shop profile: phones and the billing address, already rendered as
      text (null when the profile has none). */
  datatype ShopProfile = ShopProfile(phone: string, cellphone: string, address: Option<string>)

  /** The answers the remote service gives during one turn, and the clock
      reading of that turn in seconds. A turn makes at most one remote call,
      so each endpoint needs one answer. */
  datatype Env = Env(
    now: int,
    login: Remote<Tokens.AuthBody>,
    lookup: Remote<Part>,
    quote: Remote<Quote>,
    shop: Remote<ShopProfile>)
}

=== FILE: tokens.dfy ===
/** The credential state of the parts-catalog client: the access/refresh token
    pair, the time of the last login request and the token lifetime, with the
    login operation (used both by the constructor with the configured partner
    identity and by the login dialog with the user's own credentials) and the
    refresh guard. Clock readings are whole seconds passed in by the caller. */
module Tokens {
  import opened Outcomes

  /** The two fields read from a successful login or refresh answer. A field
      missing from the JSON body reads as null. */
  datatype AuthBody = AuthBody(accessToken: Option<string>, refreshToken: Option<string>)

  /** The client's token fields. `expiresIn` is declared but no operation
      assigns it, so it keeps its default of zero seconds. */
  datatype TokenState = TokenState(
    access: Option<string>,
    refresh: Option<string>,
    logTime: int,
    expiresIn: int)

  /** Field defaults of a freshly allocated client, before its first login. */
  const Initial := TokenState(None, None, 0, 0)

  /** What a login returns (the parsed body, or null) and the state after it. */
  datatype LoginResult = LoginResult(result: Option<AuthBody>, tokens: TokenState)

  /** One login request. The request time is recorded before the request is
      sent, whatever the answer. Only a 200 answer whose body parses replaces
      the token pair; any other answer returns null and keeps the old pair. */
  function Authorize(t: TokenState, now: int, response: Remote<AuthBody>): (r: LoginResult)
    ensures r.tokens.logTime == now
    ensures r.tokens.expiresIn == t.expiresIn
    ensures r.result.Some? <==> response.Ok?
    ensures response.Ok? ==>
              && r.result == Some(response.payload)
              && r.tokens.access == response.payload.accessToken
              && r.tokens.refresh == response.payload.refreshToken
    ensures !response.Ok? ==> r.tokens.access == t.access && r.tokens.refresh == t.refresh
  {
    var stamped := t.(logTime := now);
    match response
    case Ok(body) => LoginResult(Some(body), stamped.(access := body.accessToken, refresh := body.refreshToken))
    case NonOk => LoginResult(None, stamped)
    case ParseFail => LoginResult(None, stamped)
  }

  /** A successful login makes every earlier login attempt irrelevant: the
      state after it depends only on its own answer and time. */
  lemma LaterLoginSupersedes(t: TokenState, earlier: int, first: Remote<AuthBody>, now: int, body: AuthBody)
    ensures Authorize(Authorize(t, earlier, first).tokens, now, Ok(body)) == Authorize(t, now, Ok(body))
  {
  }

  /** A failed login is indistinguishable from no login except for the
      recorded request time. */
  lemma FailedLoginOnlyStamps(t: TokenState, now: int, response: Remote<AuthBody>)
    requires !response.Ok?
    ensures Authorize(t, now, response) == LoginResult(None, t.(logTime := now))
  {
  }

  // ---------------------------------------------------------------------
  // Refresh

  /** The refresh guard as written: the signed difference "login time minus
      now" is compared with the lifetime. */
  predicate RefreshDueAsWritten(t: TokenState, now: int)
  {
    t.logTime - now <= t.expiresIn
  }

  /** The evidently intended guard: refresh once the time elapsed since the
      login request has reached the lifetime. */
  predicate RefreshDue(t: TokenState, now: int)
  {
    now - t.logTime >= t.expiresIn
  }

  /** A token is still fresh when it was obtained in the past and less than
      its lifetime has elapsed since. */
  predicate Fresh(t: TokenState, now: int)
  {
    t.logTime <= now && now - t.logTime < t.expiresIn
  }

  /** The written guard fires for every token obtained in the past with a
      non-negative lifetime, fresh or not. */
  lemma AsWrittenGuardFiresOnFreshToken(t: TokenState, now: int)
    requires t.logTime <= now && t.expiresIn >= 0
    ensures RefreshDueAsWritten(t, now)
  {
  }

  /** A concrete instance: a one-hour token obtained ten seconds ago is still
      fresh, yet the written guard asks for a refresh. */
  lemma AsWrittenGuardCounterexample()
    ensures var t := TokenState(Some("a"), Some("r"), 1000, 3600);
            Fresh(t, 1010) && RefreshDueAsWritten(t, 1010)
  {
  }

  /** The intended guard never fires on a fresh token and always fires on an
      expired one. */
  lemma CorrectedGuardSparesFreshToken(t: TokenState, now: int)
    requires t.logTime <= now
    ensures RefreshDue(t, now) <==> !Fresh(t, now)
  {
  }

  /** While the lifetime keeps its default of zero, both guards agree: each
      asks for a refresh at every moment at or after the login request. */
  lemma GuardsAgreeWhileLifetimeUnset(t: TokenState, now: int)
    requires t.expiresIn == 0 && t.logTime <= now
    ensures RefreshDueAsWritten(t, now) && RefreshDue(t, now)
  {
  }

  /** The answer to a refresh request: no response object at all, or a
      response whose body did or did not deserialize. */
  datatype RefreshResponse = NullResponse | Body(parsed: Option<AuthBody>)

  /** A refresh either returns a (nullable) string or raises. */
  datatype RefreshAnswer = Returned(value: Option<string>) | Raised(fault: Fault)

  datatype RefreshResult = RefreshResult(answer: RefreshAnswer, tokens: TokenState)

  /** Returned when the guard decides no refresh is needed. */
  const NotDueAnswer := "juanga"

  /** Returned after the token pair has been replaced. */
  const RefreshedAnswer := "ok"

  /** The refresh as written. When the guard fires and a response arrives,
      the deserialized body is awaited as if it were a task; the dynamic
      binder finds no awaiter on a JSON value and raises before either token
      is assigned. So the token pair never changes. */
  function RefreshAsWritten(t: TokenState, now: int, response: RefreshResponse): (r: RefreshResult)
    ensures r.tokens == t
    ensures r.answer == Returned(Some(NotDueAnswer)) <==> !RefreshDueAsWritten(t, now)
    ensures RefreshDueAsWritten(t, now) ==> (r.answer.Returned? <==> response.NullResponse?)
    ensures RefreshDueAsWritten(t, now) && response.NullResponse? ==> r.answer == Returned(None)
  {
    if !RefreshDueAsWritten(t, now) then RefreshResult(Returned(Some(NotDueAnswer)), t)
    else
      match response
      case NullResponse => RefreshResult(Returned(None), t)
      case Body(parsed) =>
        if parsed.None? then RefreshResult(Raised(BadResponse), t)
        else RefreshResult(Raised(UnboundAwait), t)
  }

  /** The refresh with the intended guard and the body read without the
      stray await: a parsed answer replaces both tokens. */
  function Refresh(t: TokenState, now: int, response: RefreshResponse): (r: RefreshResult)
    ensures r.tokens.logTime == t.logTime && r.tokens.expiresIn == t.expiresIn
    ensures Fresh(t, now) ==> r == RefreshResult(Returned(Some(NotDueAnswer)), t)
    ensures r.answer == Returned(Some(NotDueAnswer)) <==> !RefreshDue(t, now)
    ensures RefreshDue(t, now) && response.NullResponse? ==> r.answer == Returned(None)
    ensures r.answer == Returned(Some(RefreshedAnswer)) <==>
              RefreshDue(t, now) && response.Body? && response.parsed.Some?
    ensures r.answer == Returned(Some(RefreshedAnswer)) ==>
              && r.tokens.access == response.parsed.value.accessToken
              && r.tokens.refresh == response.parsed.value.refreshToken
    ensures r.answer != Returned(Some(RefreshedAnswer)) ==> r.tokens == t
  {
    if !RefreshDue(t, now) then RefreshResult(Returned(Some(NotDueAnswer)), t)
    else
      match response
      case NullResponse => RefreshResult(Returned(None), t)
      case Body(parsed) =>
        match parsed
        case None => RefreshResult(Raised(BadResponse), t)
        case Some(body) =>
          RefreshResult(Returned(Some(RefreshedAnswer)), t.(access := body.accessToken, refresh := body.refreshToken))
  }

  /** Whatever the answer, the written refresh leaves the token pair as it
      was, while the corrected one installs a parsed answer when due. */
  lemma AsWrittenRefreshNeverUpdates(t: TokenState, now: int, body: AuthBody)
    requires t.expiresIn == 0 && t.logTime <= now
    ensures RefreshAsWritten(t, now, Body(Some(body))) == RefreshResult(Raised(UnboundAwait), t)
    ensures Refresh(t, now, Body(Some(body))).tokens.access == body.accessToken
  {
  }
}
